=== FILE: README.md ===
# swift-http-hook: a Dafny model of the request core

The modelled library is a small Swift HTTP helper. A caller describes a request with a descriptor: a url, optional headers, an optional timeout and, in the body-bearing variant, an optional `Encodable` body. The caller then invokes a verb (`get`, `post`, `put`, `delete`) on `HttpRequestHook` with a callback. The hook does four things in order:

1. It emits `Callback(loading: true)`.
2. It builds a `URLRequest` from the descriptor and JSON-encodes the body, if there is one.
3. It hands the request to its session.
4. It turns each completion the session delivers into a terminal callback. On the success path it decodes the JSON payload; otherwise it reports an error from the closed `RequestError` taxonomy.

A second copy of the same design lives in `HttpSession/`. There, descriptors build their own `URLRequest` (`toURLRequest`), and `BaseHttpClient` returns raw response bytes without decoding them.

The model is functional:

- Descriptors, requests, responses, errors and callbacks are datatypes.
- Building and classifying are pure functions.
- A verb call is a `Run`: the request that was dispatched (if any) and the list of callback snapshots, in order.
- The session is a function from a request to the list of completion invocations it makes. This makes the callback sequence a list that lemmas can reason about.
- Foundation behaviour the model cannot see is passed in as function values: `URL(string:)`, `JSONEncoder.encode`, `JSONDecoder.decode`, and the `localizedDescription` of a thrown `RequestError`. Every property therefore holds whatever those functions do.
- A Swift `[String: String]` is modelled as its entries in iteration order, with distinct names. The build loop is a left fold of `addValue`. A lemma shows that the result is the dictionary's contents whatever the order.
- Because the builders are pure functions of the descriptor, the verb and the parser, materialising the same descriptor twice gives the same result.

The code is modelled as written. Two of its behaviours deserve a note:

- **Transport error falls through.** The transport-error branch of both `doNetworkRequest` versions does not `return`. A delivery that carries a transport error therefore produces a `NetworkError` completion and then a second completion that classifies the response. For a single delivery the caller sees three callbacks (`RequestHook.TransportErrorFallsThrough`). The library's tests assert exactly two callbacks, but none of their scenarios has a transport error, so they never reach this path. With no transport error, the two-callback shape holds (`RequestHook.SingleCleanDeliveryGivesTwoCallbacks`).
- **Build errors are wrapped.** The orchestrator's `catch` wraps every build error, `noUrl` and `badUrl` included, as `.exception(localizedDescription)`. So the caller never sees `NoUrl` or `BadUrl` (`RequestHook.NoUrlAndBadUrlNeverReachTheCaller`), although the public `RequestError` enum offers them.

Modules:

| module | file | models |
|---|---|---|
| `Basics` | basics.dfy | `Option` and `Result` |
| `Foundation` | foundation.dfy | the stand-ins: `Url`, `CachePolicy`, `URLRequest`, `addValue`, header dictionaries, responses, the session |
| `Types` | types.dfy | `Types.swift`: `RequestError`, `HttpRequest`, `HttpRequestWithBody`, `Callback`, and the completion pair |
| `RequestType` | request_type.dfy | the `HttpRequestType` enum, and what a materialised request must look like |
| `Descriptors` | http_request.dfy | `HttpSession/HttpRequest.swift` |
| `RawClient` | http_client.dfy | `HttpSession/HttpClient.swift` |
| `RequestHook` | http_request_hook.dfy | `HttpRequestHook.swift` |
| `Variants` | variants.dfy | agreement between the two near-duplicate versions |

## Model

| member | source | states |
|---|---|---|
| `Foundation.ContentsOfDictionary` | Sources/HttpRequestHook/HttpSession/HttpRequest.swift:48-52 | the map a header dictionary denotes holds every entry with its own value and no other names |
| `Foundation.AddValuesOntoFresh` | Sources/HttpRequestHook/HttpRequestHook.swift:137-141 | running the `for`/`addValue` loop over a dictionary whose names are not yet present never takes the comma-append branch; the result is the old fields plus the dictionary's contents, whatever the iteration order |
| `Foundation.HeaderFields` | Sources/HttpRequestHook/HttpSession/HttpRequest.swift:48-52 | on a freshly built request, the header loop leaves exactly the dictionary's contents; `nil` headers add nothing |
| `Types.RequestErrorEqualityIsStructural` | Sources/HttpRequestHook/Types.swift:44-51 | two errors are equal iff they are the same one of the six cases with equal payloads, e.g. `httpStatus(a) == httpStatus(b)` iff `a == b` |
| `Types.NewHttpRequest` | Sources/HttpRequestHook/Types.swift:9-17 | the full initialiser stores url, headers and timeout as given, and leaves `cachePolicy` nil whatever policy is passed |
| `Types.NewHttpRequestFromUrl` | Sources/HttpRequestHook/Types.swift:19-21 | the url-only initialiser leaves headers, timeout and cachePolicy nil |
| `Types.UrlOnlyInitialisersAgree` | Sources/HttpRequestHook/Types.swift:9-21 | `HttpRequest(url:)` builds the same descriptor whichever of the two initialisers Swift picks |
| `Types.NewHttpRequestWithBody` | Sources/HttpRequestHook/Types.swift:27-30 | stores the given (non-nil) body and forwards url, headers and timeout unchanged to the base; the base cache policy stays nil |
| `Types.NewHttpRequestWithBodyFromUrl` | Sources/HttpRequestHook/Types.swift:32-35 | stores the given body; the base has only the url |
| `Types.LoadingOnly` | Sources/HttpRequestHook/Types.swift:38-42 | a `Callback` built with only `loading` has `result == nil` and `error == nil` |
| `RequestType.RawValuesDistinct` | Sources/HttpRequestHook/HttpRequestHook.swift:4-9 | two verbs have the same raw value iff they are the same verb, so the four verbs send four distinct methods |
| `Descriptors.NewRequestWithoutBody` | Sources/HttpRequestHook/HttpSession/HttpRequest.swift:16-25 | stores url, headers, timeout and the given cache policy |
| `Descriptors.NewRequestWithoutBodyFromUrl` | Sources/HttpRequestHook/HttpSession/HttpRequest.swift:27-30 | the url-plus-cachePolicy initialiser leaves headers and timeout nil |
| `Descriptors.UrlOnlyInitialisersAgree` | Sources/HttpRequestHook/HttpSession/HttpRequest.swift:16-30 | `super.init(url:)` builds the same base descriptor whichever of the two initialisers Swift picks |
| `Descriptors.ToUrlRequest` | Sources/HttpRequestHook/HttpSession/HttpRequest.swift:32-55 | an empty url gives `noUrl` whatever the parser says; otherwise an unparsable url gives `badUrl`; otherwise the request has the parsed url, method `type.rawValue`, timeout `timeout ?? 20`, protocol cache policy, exactly the header entries, and no body |
| `Descriptors.ToUrlRequestIgnoresCachePolicy` | Sources/HttpRequestHook/HttpSession/HttpRequest.swift:41-44 | the stored cache policy has no effect: descriptors differing only in it materialise identically |
| `Descriptors.NewRequestWithBody` | Sources/HttpRequestHook/HttpSession/HttpRequest.swift:62-66 | stores the given body and forwards url, headers and timeout, with the default cache policy, to the base |
| `Descriptors.NewRequestWithBodyFromUrl` | Sources/HttpRequestHook/HttpSession/HttpRequest.swift:68-72 | stores the given body; the base has only url and the default cache policy |
| `Descriptors.ToUrlRequestWithBody` | Sources/HttpRequestHook/HttpSession/HttpRequest.swift:74-82 | a base error is propagated before any encoding; a success has a valid parsed url, carries a payload iff the body is non-nil, that payload being the encoder's output, and is otherwise the base materialisation; a thrown encoder error arises only from a present body, and any encoder failure is passed on as thrown; with a successful base and an absent or encodable body the result is a success |
| `Descriptors.BodyAttachedExactlyWhenPresent` | Sources/HttpRequestHook/HttpSession/HttpRequest.swift:74-82 | a successful result carries a payload iff the descriptor has a body; the payload is the encoder's output, and the rest is the base materialisation |
| `RawClient.Classify` | Sources/HttpRequestHook/HttpSession/HttpClient.swift:25-49 | a transport error gives a `networkError` completion first and one more completion follows; with no transport error there is exactly one completion; a non-HTTP response gives `exception("HttpResponse could not be created")`; a status in [200,300) gives the data unchanged, or `exception("Response Data object is empty")` without data; any other status gives `httpStatus` with the exact code; every completion carries exactly one of result and error |
| `RawClient.ClassifyAll` | Sources/HttpRequestHook/HttpSession/HttpClient.swift:25-49 | over a list of deliveries, there is one completion per delivery plus one per transport error; each carries exactly one of result and error, and none carries `noUrl` or `badUrl` |
| `RawClient.ClassifyAllAppend` | Sources/HttpRequestHook/HttpSession/HttpClient.swift:25-49 | each delivery is classified on its own and in order: the completions for two runs of deliveries are those of the first followed by those of the second |
| `RawClient.DoNetworkRequest` | Sources/HttpRequestHook/HttpSession/HttpClient.swift:22-50 | the completions for one request number exactly the session's deliveries plus those carrying a transport error; each carries exactly one of result and error, and none carries `noUrl` or `badUrl` |
| `RawClient.SingleDeliveryCompletions` | Sources/HttpRequestHook/HttpSession/HttpClient.swift:26-48 | for a session that answers once, the caller gets one completion, or two when the answer carries a transport error |
| `RequestHook.BuildUrlRequest` | Sources/HttpRequestHook/HttpRequestHook.swift:119-144 | an empty url gives `noUrl` whatever the parser says; otherwise an unparsable url gives `badUrl`; otherwise the request has the parsed url, the verb's raw value, timeout `timeout ?? 20`, `useProtocolCachePolicy`, every header pair, and no body |
| `RequestHook.PrepareWithBody` | Sources/HttpRequestHook/HttpRequestHook.swift:104-108 | a build error comes first and the encoder is not consulted; a successful result is the built request with a payload iff a body is present, that payload being the encoder's output; an encoder error arises only from a present body, and an encoder failure on a present body is always passed on as that error; with a successful build and an absent or encodable body, preparation succeeds |
| `RequestHook.PrepareSucceedsWhenBuildAndEncodeDo` | Sources/HttpRequestHook/HttpRequestHook.swift:105-108 | if building succeeds and the body is absent or encodable, preparation succeeds |
| `RequestHook.Interpret` | Sources/HttpRequestHook/HttpRequestHook.swift:149-177 | a transport error gives a `networkError` completion first, followed by one more; a non-HTTP response gives `exception("HttpResponse could not be created")`; a status in [200,300) gives the decoded value, or `jsonParseFailure` with the decoder's description, or `exception("Response Data object is empty")` without data; any other status gives `httpStatus` with the exact code; every completion carries exactly one of result and error |
| `RequestHook.InterpretSucceedsExactlyOnDecodedSuccess` | Sources/HttpRequestHook/HttpRequestHook.swift:161-176 | the final completion carries a result iff the response is HTTP with a status in [200,300), data is present and decodes; a status outside that range yields `httpStatus(code)` whatever the data |
| `RequestHook.InterpretAll` | Sources/HttpRequestHook/HttpRequestHook.swift:146-178 | over a list of deliveries, there is one completion per delivery plus one per transport error; each is decisive, and none carries `noUrl` or `badUrl` |
| `RequestHook.InterpretAllAppend` | Sources/HttpRequestHook/HttpRequestHook.swift:146-178 | each delivery is interpreted on its own and in order: the completions for two runs of deliveries are those of the first followed by those of the second |
| `RequestHook.InterpretAllSingle` | Sources/HttpRequestHook/HttpRequestHook.swift:149-177 | a single delivery gives exactly its own completions, as `Interpret` pins them |
| `RequestHook.DoNetworkRequest` | Sources/HttpRequestHook/HttpRequestHook.swift:146-178 | the completions for one dispatched request number exactly the session's deliveries plus those carrying a transport error; each has exactly one of result and error, and none carries `noUrl` or `badUrl` |
| `RequestHook.Dispatch` | Sources/HttpRequestHook/HttpRequestHook.swift:84-94 | the first callback is loading with no result or error; if building or encoding threw, nothing is dispatched and exactly one more callback follows, with `exception(localizedDescription)`; otherwise the prepared request is dispatched and each completion becomes one settled callback |
| `RequestHook.RequestWithoutBody` | Sources/HttpRequestHook/HttpRequestHook.swift:80-95 | the first callback is loading, and every later callback is non-loading with exactly one of result and error; the dispatched request is exactly the built one (method = the verb's raw value, no body), and nothing is dispatched iff building fails; after dispatch, each completion the session delivers becomes `Callback(loading: false, result, error)` in order; a build failure yields exactly one callback, `exception(localizedDescription)` |
| `RequestHook.RequestWithBody` | Sources/HttpRequestHook/HttpRequestHook.swift:97-117 | the first callback is loading, and later callbacks are settled; the dispatched request is exactly the built request with the encoded body (method = the verb's raw value, payload iff a body is present), and nothing is dispatched iff building or encoding fails; after dispatch, each completion becomes a settled callback in order; a failure yields exactly one callback, `exception(localizedDescription)` of the thrown error |
| `RequestHook.Get` | Sources/HttpRequestHook/HttpRequestHook.swift:38-42 | the first callback is loading and every later one is settled; a request is dispatched iff building succeeds, and it has method "GET" and no body; the dispatched request is exactly the built request and each completion the session delivers becomes one settled callback, in order; a failure yields exactly one callback after loading |
| `RequestHook.PostWithBody` | Sources/HttpRequestHook/HttpRequestHook.swift:44-48 | the first callback is loading and every later one is settled; a request is dispatched iff building and encoding succeed, and it has method "POST" and a payload iff the body is present; the dispatched request is exactly the prepared request (encoded body attached) and each completion the session delivers becomes one settled callback, in order; a failure yields exactly one callback after loading |
| `RequestHook.Post` | Sources/HttpRequestHook/HttpRequestHook.swift:50-54 | the first callback is loading and every later one is settled; a request is dispatched iff building succeeds, and it has method "POST" and no body; the dispatched request is exactly the built request and each completion the session delivers becomes one settled callback, in order; a failure yields exactly one callback after loading |
| `RequestHook.PutWithBody` | Sources/HttpRequestHook/HttpRequestHook.swift:56-60 | the first callback is loading and every later one is settled; a request is dispatched iff building and encoding succeed, and it has method "PUT" and a payload iff the body is present; the dispatched request is exactly the prepared request (encoded body attached) and each completion the session delivers becomes one settled callback, in order; a failure yields exactly one callback after loading |
| `RequestHook.Put` | Sources/HttpRequestHook/HttpRequestHook.swift:62-66 | the first callback is loading and every later one is settled; a request is dispatched iff building succeeds, and it has method "PUT" and no body; the dispatched request is exactly the built request and each completion the session delivers becomes one settled callback, in order; a failure yields exactly one callback after loading |
| `RequestHook.DeleteWithBody` | Sources/HttpRequestHook/HttpRequestHook.swift:68-72 | the first callback is loading and every later one is settled; a request is dispatched iff building and encoding succeed, and it has method "DELETE" and a payload iff the body is present; the dispatched request is exactly the prepared request (encoded body attached) and each completion the session delivers becomes one settled callback, in order; a failure yields exactly one callback after loading |
| `RequestHook.Delete` | Sources/HttpRequestHook/HttpRequestHook.swift:74-78 | the first callback is loading and every later one is settled; a request is dispatched iff building succeeds, and it has method "DELETE" and no body; the dispatched request is exactly the built request and each completion the session delivers becomes one settled callback, in order; a failure yields exactly one callback after loading |
| `RequestHook.NoUrlAndBadUrlNeverReachTheCaller` | Sources/HttpRequestHook/HttpRequestHook.swift:91-93 | because the `catch` wraps build errors as `exception`, no callback of any call ever carries `noUrl` or `badUrl` |
| `RequestHook.EmptyUrlIsNeverDispatched` | Sources/HttpRequestHook/HttpRequestHook.swift:120-123 | with an empty url the session is never called; the caller sees loading, then one `exception` describing `noUrl` |
| `RequestHook.SingleCleanDeliveryGivesTwoCallbacks` | Sources/HttpRequestHook/HttpRequestHook.swift:149-177 | a session that answers once without a transport error yields exactly two callbacks: loading, then one settled callback classifying the answer |
| `RequestHook.TransportErrorFallsThrough` | Sources/HttpRequestHook/HttpRequestHook.swift:150-158 | a single answer carrying a transport error yields three callbacks: loading, `networkError`, then exactly the settled classification of the response that came with the error (for example `httpStatus(500)` for a 500 response, `exception("HttpResponse could not be created")` when there is no response) |
| `RequestHook.GetSettlesByStatus` | Tests/HttpRequestHookTests/HttpRequestHookTests.swift:27-91 | a GET answered once emits two callbacks; status 200 with decodable data settles with the decoded value, and a status outside [200,300) such as 199 settles with `httpStatus` of that exact code |
| `RequestHook.PostWithBodySettlesWithDecodedValue` | Tests/HttpRequestHookTests/HttpRequestHookTests.swift:93-125 | a POST whose body encodes, answered once with 200 and decodable data, sends the encoded body and emits two callbacks, the second carrying the decoded value |
| `Variants.BuildersAgree` | Sources/HttpRequestHook/HttpSession/HttpRequest.swift:32-55 | `buildURLRequest` and `RequestWithoutBody.toURLRequest` return the same request or the same error for every descriptor, verb and parser |
| `Variants.BodyBuildersAgree` | Sources/HttpRequestHook/HttpSession/HttpRequest.swift:74-82 | the orchestrator's build-then-encode step and `RequestWithBody.toURLRequest` agree, errors included |
| `Variants.RawClassifierIsIdentityDecoding` | Sources/HttpRequestHook/HttpSession/HttpClient.swift:37-48 | the raw-bytes classification equals the decoding one run with a decoder that returns the bytes unchanged |
| `Variants.RawClientNeverReportsParseFailure` | Sources/HttpRequestHook/HttpSession/HttpClient.swift:37-48 | the raw client never reports `jsonParseFailure` |

## Left out

- Logging through `OSLog`: it is a side channel that never affects control flow or results.
- The `URLSession` conformances (`HttpRequestHook.swift:15-23`, `HttpSession.swift:7-15`): they only forward to `dataTask`/`resume`. The session is a parameter instead.
- Asynchrony and threading of completion handlers: the session is modelled as returning its completion invocations synchronously. The order of callbacks within one call is the same either way, because the loading callback is emitted before dispatch.
- Foundation's real URL parsing, JSON encoding and decoding, and error texts: these are function parameters, so no property depends on what they do.
- Case-insensitive header names in `URLRequest`: header names are compared as exact strings.
- Unicode canonical equivalence of Swift `String`s: dictionary keys and header names are compared code unit by code unit. The model therefore admits some dictionaries Swift would merge, which only widens the inputs covered.
- `Double` timeouts: modelled as `real`, with no floating-point rounding.
- The default arguments of the initialisers of `HttpRequestHook` and `BaseHttpClient`: the `session` default (`URLSession.shared`) selects the production transport, which the model takes as a parameter; the `logger` default is `nil`, and logging is left out above.
- `RequestHook.DoNetworkRequest`, `RawClient.DoNetworkRequest`: a session may deliver any number of completions. The "exactly once" behaviour of Foundation's data task is assumed only in the single-delivery lemmas, not by these functions.

=== FILE: basics.dfy ===
/** The two shapes Swift's optionals and `throws` take in this model:
    `T?` becomes `Option<T>`, a throwing call becomes a `Result`. */
module Basics {

  datatype Option<+T> = None | Some(value: T) {

    /** Swift's `??`: the wrapped value, or `default` when absent. */
    function GetOr(default: T): T {
      match this
      case Some(v) => v
      case None => default
    }
  }

  datatype Result<+R, +E> = Success(value: R) | Failure(error: E)
}

=== FILE: foundation.dfy ===
/** Stand-ins for the parts of Apple's Foundation framework the core touches.
    Behaviour the model cannot see (URL parsing, JSON coding, error texts,
    the network) enters as function-typed values chosen by the caller, so
    every property proved below holds whatever those functions do. */
module Foundation {
  import opened Basics

  type Bytes = seq<bv8>

  /** A parsed `URL`; only its source text is kept. */
  datatype Url = Url(absoluteString: string)

  /** `URL(string:)`: answers `None` for text Foundation does not accept. */
  type UrlParser = string -> Option<Url>

  /** `NSURLRequest.CachePolicy`. */
  datatype CachePolicy =
    | UseProtocolCachePolicy
    | ReloadIgnoringLocalCacheData
    | ReloadIgnoringLocalAndRemoteCacheData
    | ReturnCacheDataElseLoad
    | ReturnCacheDataDontLoad
    | ReloadRevalidatingCacheData

  /** An error object from Foundation (transport or coder), seen only
      through its `localizedDescription`. */
  datatype SystemError = SystemError(localizedDescription: string)

  // ---------------------------------------------------------------------
  // Header dictionaries

  type Header = (string, string)

  predicate DistinctNames(entries: seq<Header>) {
    forall i, j :: 0 <= i < j < |entries| ==> entries[i].0 != entries[j].0
  }

  /** A Swift `[String: String]`, as its entries in iteration order. Swift
      leaves that order unspecified, so nothing below depends on it. */
  type Dictionary = entries: seq<Header> | DistinctNames(entries)

  function Names(entries: seq<Header>): set<string> {
    set i | 0 <= i < |entries| :: entries[i].0
  }

  /** The name-to-value map a dictionary denotes. */
  function Contents(entries: seq<Header>): map<string, string> {
    if entries == [] then map[]
    else Contents(entries[1..])[entries[0].0 := entries[0].1]
  }

  /** The header fields a request ends up with from an optional
      dictionary: none for `nil`. */
  function HeaderContents(headers: Option<Dictionary>): map<string, string> {
    match headers
    case None => map[]
    case Some(d) => Contents(d)
  }

  /** Every entry of a dictionary is in its contents with its own value,
      and the contents hold nothing else. */
  lemma {:induction false} ContentsOfDictionary(d: Dictionary)
    ensures Contents(d).Keys == Names(d)
    ensures forall i :: 0 <= i < |d| ==> Contents(d)[d[i].0] == d[i].1
    decreases |d|
  {
    if d != [] {
      var rest: Dictionary := d[1..];
      ContentsOfDictionary(rest);
      assert Names(d) == Names(rest) + {d[0].0} by {
        forall n | n in Names(d) ensures n in Names(rest) + {d[0].0} {
          var i :| 0 <= i < |d| && d[i].0 == n;
          if i > 0 { assert rest[i - 1].0 == n; }
        }
        forall n | n in Names(rest) ensures n in Names(d) {
          var i :| 0 <= i < |rest| && rest[i].0 == n;
          assert d[i + 1].0 == n;
        }
      }
      forall i | 0 <= i < |d| ensures Contents(d)[d[i].0] == d[i].1 {
        if i > 0 {
          assert d[i] == rest[i - 1];
          assert d[i].0 != d[0].0;
        }
      }
    }
  }

  // ---------------------------------------------------------------------
  // URLRequest

  datatype UrlRequest = UrlRequest(
    url: Url,
    cachePolicy: CachePolicy,
    timeoutInterval: real,
    httpMethod: string,
    allHttpHeaderFields: map<string, string>,
    httpBody: Option<Bytes>)

  /** `URLRequest(url:cachePolicy:timeoutInterval:)`: method "GET", no
      header fields, no body. */
  function NewUrlRequest(url: Url, cachePolicy: CachePolicy, timeoutInterval: real): UrlRequest {
    UrlRequest(url, cachePolicy, timeoutInterval, "GET", map[], None)
  }

  /** `addValue(_:forHTTPHeaderField:)`: a field already present gets the
      new value appended after a comma; otherwise the field is created. */
  function AddValue(fields: map<string, string>, name: string, value: string): map<string, string> {
    if name in fields then fields[name := fields[name] + "," + value]
    else fields[name := value]
  }

  /** The loop `for (name, value) in headers { addValue(value, name) }`,
      visiting the entries in iteration order. */
  function AddValues(fields: map<string, string>, entries: seq<Header>): map<string, string>
    decreases |entries|
  {
    if entries == [] then fields
    else AddValues(AddValue(fields, entries[0].0, entries[0].1), entries[1..])
  }

  /** Adding the entries of a dictionary whose names are not yet present
      never takes the comma-append branch: the result is the old fields
      plus the dictionary's contents, whatever the iteration order. */
  lemma {:induction false} AddValuesOntoFresh(fields: map<string, string>, d: Dictionary)
    requires Names(d) !! fields.Keys
    ensures AddValues(fields, d) == fields + Contents(d)
    decreases |d|
  {
    if d != [] {
      var rest: Dictionary := d[1..];
      var (name, value) := d[0];
      assert name in Names(d);
      var fields' := fields[name := value];
      assert AddValue(fields, name, value) == fields';
      ContentsOfDictionary(rest);
      assert name !in Names(rest) by {
        forall i | 0 <= i < |rest| ensures rest[i].0 != name {
          assert rest[i] == d[i + 1];
        }
      }
      assert Names(rest) !! fields'.Keys by {
        forall n | n in Names(rest) ensures n !in fields'.Keys {
          var i :| 0 <= i < |rest| && rest[i].0 == n;
          assert d[i + 1].0 == n;
          assert n in Names(d);
        }
      }
      AddValuesOntoFresh(fields', rest);
      assert fields' + Contents(rest) == fields + Contents(d);
    }
  }

  /** The header fields a freshly built request gets from an optional
      dictionary: exactly the dictionary's contents. */
  function HeaderFields(headers: Option<Dictionary>): (fields: map<string, string>)
    ensures fields == HeaderContents(headers)
  {
    match headers
    case None => map[]
    case Some(d) =>
      AddValuesOntoFresh(map[], d);
      AddValues(map[], d)
  }

  // ---------------------------------------------------------------------
  // Responses and the transport

  /** A `URLResponse`, which may or may not be an `HTTPURLResponse`. */
  datatype UrlResponse = HttpUrlResponse(statusCode: int) | PlainUrlResponse

  /** The status range both classifiers treat as success. */
  predicate IsSuccessStatus(code: int) {
    200 <= code < 300
  }

  /** One invocation of a completion handler: `(Data?, URLResponse?, Error?)`. */
  datatype Delivery = Delivery(data: Option<Bytes>, response: Option<UrlResponse>, error: Option<SystemError>)

  /** How many of the deliveries carry a transport error. */
  function TransportErrors(ds: seq<Delivery>): nat {
    if ds == [] then 0 else (if ds[0].error.Some? then 1 else 0) + TransportErrors(ds[1..])
  }

  /** A transport (`makeRequest` / `startDataTask`): for a request, the
      completion invocations it makes, in order. Foundation's data task
      invokes its handler exactly once; a test double may do anything. */
  type Session = UrlRequest -> seq<Delivery>
}

=== FILE: http_client.dfy ===
/** `HttpSession/HttpClient.swift`: `BaseHttpClient`, which dispatches a
    built request and hands the caller the raw response bytes, with no JSON
    decoding. */
module RawClient {
  import opened Basics
  import opened Foundation
  import opened Types

  /** The struct `BaseHttpClient`; its only behaviour is its session. */
  datatype BaseHttpClient = BaseHttpClient(session: Session)

  /** The completions one transport delivery produces, as the code is
      written: a transport error is reported as `NetworkError` and, since
      that branch does not return, the response is then classified too.
      The classification reports a non-HTTP (or missing) response, an empty
      success body, a status outside [200, 300) with its exact code, or the
      success bytes untouched. */
  function Classify(d: Delivery): (cs: seq<Completion<Bytes>>)
    ensures |cs| == if d.error.Some? then 2 else 1
    ensures forall i :: 0 <= i < |cs| ==> IsDecisive(cs[i])
    ensures d.error.Some? ==> cs[0] == Failed(NetworkError(d.error.value.localizedDescription))
    ensures var last := cs[|cs| - 1];
      && (last.result.Some? <==>
            d.response.Some? && d.response.value.HttpUrlResponse? &&
            IsSuccessStatus(d.response.value.statusCode) && d.data.Some?)
      && (last.result.Some? ==> last.result == d.data)
      && (d.response.None? || d.response.value.PlainUrlResponse? ==>
            last.error == Some(Exception(ResponseNotCreated)))
      && (d.response.Some? && d.response.value.HttpUrlResponse? && !IsSuccessStatus(d.response.value.statusCode) ==>
            last.error == Some(HttpStatus(d.response.value.statusCode)))
      && (d.response.Some? && d.response.value.HttpUrlResponse? && IsSuccessStatus(d.response.value.statusCode) && d.data.None? ==>
            last.error == Some(Exception(ResponseDataEmpty)))
  {
    var reported: seq<Completion<Bytes>> :=
      if d.error.Some? then [Failed(NetworkError(d.error.value.localizedDescription))] else [];
    var classified: Completion<Bytes> :=
      match d.response
      case Some(HttpUrlResponse(code)) =>
        if code >= 200 && code < 300 then
          match d.data
          case None => Failed(Exception(ResponseDataEmpty))
          case Some(dataObj) => Completion(Some(dataObj), None)
        else
          Failed(HttpStatus(code))
      case _ => Failed(Exception(ResponseNotCreated));
    reported + [classified]
  }

  /** The completions for a sequence of deliveries, in delivery order:
      one per delivery plus one per transport error, and none carrying
      `NoUrl` or `BadUrl`, which only building raises. */
  function ClassifyAll(ds: seq<Delivery>): (cs: seq<Completion<Bytes>>)
    ensures |cs| == |ds| + TransportErrors(ds)
    ensures forall i :: 0 <= i < |cs| ==> IsDecisive(cs[i])
    ensures forall i :: 0 <= i < |cs| ==> cs[i].error != Some(NoUrl) && cs[i].error != Some(BadUrl)
  {
    if ds == [] then [] else Classify(ds[0]) + ClassifyAll(ds[1..])
  }

  /** Deliveries are classified one by one and in order. */
  lemma {:induction false} ClassifyAllAppend(a: seq<Delivery>, b: seq<Delivery>)
    ensures ClassifyAll(a + b) == ClassifyAll(a) + ClassifyAll(b)
    decreases |a|
  {
    if a == [] {
      assert a + b == b;
    } else {
      assert (a + b)[1..] == a[1..] + b;
      ClassifyAllAppend(a[1..], b);
    }
  }

  /** `BaseHttpClient.doNetworkRequest(request:completionHandler:)`: the
      completion-handler calls, in order, for one request. */
  function DoNetworkRequest(client: BaseHttpClient, request: UrlRequest): (cs: seq<Completion<Bytes>>)
    ensures |cs| == |client.session(request)| + TransportErrors(client.session(request))
    ensures forall i :: 0 <= i < |cs| ==> IsDecisive(cs[i])
    ensures forall i :: 0 <= i < |cs| ==> cs[i].error != Some(NoUrl) && cs[i].error != Some(BadUrl)
  {
    ClassifyAll(client.session(request))
  }

  /** With a transport that answers once without a transport error, the
      caller sees exactly one completion, and it is the classification of
      that answer; with a transport error it sees two, `NetworkError`
      first. */
  lemma SingleDeliveryCompletions(client: BaseHttpClient, request: UrlRequest, d: Delivery)
    requires client.session(request) == [d]
    ensures DoNetworkRequest(client, request) == Classify(d)
    ensures |DoNetworkRequest(client, request)| == if d.error.Some? then 2 else 1
  {
    assert client.session(request)[1..] == [];
  }
}

=== FILE: http_request.dfy ===
/** The self-materialising descriptors of `HttpSession/HttpRequest.swift`:
    `RequestWithoutBody` and its subclass `RequestWithBody`, each able to
    turn itself into a `URLRequest` for a given verb. */
module Descriptors {
  import opened Basics
  import opened Foundation
  import opened Types
  import opened RequestType

  /** The class `RequestWithoutBody`. Unlike `Types.HttpRequest`, its
      initialisers do store the cache policy, though `toURLRequest` never
      reads it. */
  datatype RequestWithoutBody = RequestWithoutBody(
    url: string,
    headers: Option<Dictionary>,
    timeout: Option<real>,
    cachePolicy: Option<CachePolicy>)

  /** `init(url:headers:timeout:cachePolicy:)`. */
  function NewRequestWithoutBody(
    url: string, headers: Option<Dictionary>, timeout: Option<real>, cachePolicy: CachePolicy): (r: RequestWithoutBody)
    ensures r.url == url && r.headers == headers && r.timeout == timeout
    ensures r.cachePolicy == Some(cachePolicy)
  {
    RequestWithoutBody(url, headers, timeout, Some(cachePolicy))
  }

  /** `init(url:cachePolicy:)`: headers and timeout stay `nil`. */
  function NewRequestWithoutBodyFromUrl(url: string, cachePolicy: CachePolicy): (r: RequestWithoutBody)
    ensures r.url == url && r.cachePolicy == Some(cachePolicy)
    ensures r.headers.None? && r.timeout.None?
  {
    RequestWithoutBody(url, None, None, Some(cachePolicy))
  }

  /** `super.init(url: url)` in `RequestWithBody` matches both initialisers
      once defaults are filled in; either way the same descriptor results. */
  lemma UrlOnlyInitialisersAgree(url: string, cachePolicy: CachePolicy)
    ensures NewRequestWithoutBody(url, None, None, cachePolicy) == NewRequestWithoutBodyFromUrl(url, cachePolicy)
  {
  }

  /** `RequestWithoutBody.toURLRequest(type:)`. The empty url is rejected
      before the parser is asked, so that answer holds whatever `parseUrl`
      says about the empty string; a url the parser refuses is `BadUrl`;
      any other descriptor materialises. The stored cache policy plays no
      part. */
  function ToUrlRequest(r: RequestWithoutBody, requestType: HttpRequestType, parseUrl: UrlParser)
    : (res: Result<UrlRequest, RequestError>)
    ensures r.url == [] ==> res == Failure(NoUrl)
    ensures r.url != [] && parseUrl(r.url).None? ==> res == Failure(BadUrl)
    ensures r.url != [] && parseUrl(r.url).Some? ==>
      res.Success? && Materializes(res.value, parseUrl(r.url).value, requestType, r.timeout, r.headers)
  {
    if r.url == [] then
      Failure(NoUrl)
    else
      match parseUrl(r.url)
      case None => Failure(BadUrl)
      case Some(urlObject) =>
        var initial := NewUrlRequest(urlObject, UseProtocolCachePolicy, r.timeout.GetOr(DefaultTimeout));
        var withMethod := initial.(httpMethod := requestType.RawValue());
        Success(withMethod.(allHttpHeaderFields := HeaderFields(r.headers)))
  }

  /** Materialisation depends on nothing but url, headers, timeout and
      verb: two descriptors that differ only in their stored cache policy
      give the same request (or the same error). */
  lemma ToUrlRequestIgnoresCachePolicy(
    r: RequestWithoutBody, p: Option<CachePolicy>, requestType: HttpRequestType, parseUrl: UrlParser)
    ensures ToUrlRequest(r.(cachePolicy := p), requestType, parseUrl) == ToUrlRequest(r, requestType, parseUrl)
  {
  }

  /** The subclass `RequestWithBody<TBody>`. */
  datatype RequestWithBody<B> = RequestWithBody(base: RequestWithoutBody, body: Option<B>)

  /** `init(url:body:headers:timeout:)`: the base gets the default cache
      policy. */
  function NewRequestWithBody<B>(
    url: string, body: B, headers: Option<Dictionary>, timeout: Option<real>): (r: RequestWithBody<B>)
    ensures r.body == Some(body)
    ensures r.base.url == url && r.base.headers == headers && r.base.timeout == timeout
    ensures r.base.cachePolicy == Some(UseProtocolCachePolicy)
  {
    RequestWithBody(NewRequestWithoutBody(url, headers, timeout, UseProtocolCachePolicy), Some(body))
  }

  /** `init(url:body:)`. */
  function NewRequestWithBodyFromUrl<B>(url: string, body: B): (r: RequestWithBody<B>)
    ensures r.body == Some(body)
    ensures r.base.url == url && r.base.headers.None? && r.base.timeout.None?
    ensures r.base.cachePolicy == Some(UseProtocolCachePolicy)
  {
    RequestWithBody(NewRequestWithoutBodyFromUrl(url, UseProtocolCachePolicy), Some(body))
  }

  /** `RequestWithBody.toURLRequest(type:)`: the base request, with the
      JSON encoding of the body as payload when a body is present. A base
      failure is passed on before the encoder is consulted; an encoder
      failure is passed on as thrown. */
  function ToUrlRequestWithBody<B>(
    r: RequestWithBody<B>, requestType: HttpRequestType, parseUrl: UrlParser,
    encode: B -> Result<Bytes, SystemError>)
    : (res: Result<UrlRequest, Thrown>)
    ensures ToUrlRequest(r.base, requestType, parseUrl).Failure? ==>
      res == Failure(Raised(ToUrlRequest(r.base, requestType, parseUrl).error))
    ensures res.Success? ==>
      && r.base.url != [] && parseUrl(r.base.url).Some?
      && (res.value.httpBody.Some? <==> r.body.Some?)
      && (r.body.Some? ==> encode(r.body.value) == Success(res.value.httpBody.value))
      && Materializes(res.value.(httpBody := None), parseUrl(r.base.url).value, requestType, r.base.timeout, r.base.headers)
    ensures res.Failure? && res.error.Foreign? ==>
      r.body.Some? && encode(r.body.value) == Failure(res.error.cause)
    ensures ToUrlRequest(r.base, requestType, parseUrl).Success? && r.body.Some? && encode(r.body.value).Failure? ==>
      res == Failure(Foreign(encode(r.body.value).error))
    ensures ToUrlRequest(r.base, requestType, parseUrl).Success? && (r.body.None? || encode(r.body.value).Success?) ==>
      res.Success?
  {
    match ToUrlRequest(r.base, requestType, parseUrl)
    case Failure(e) => Failure(Raised(e))
    case Success(urlRequest) =>
      match r.body
      case None => Success(urlRequest)
      case Some(b) =>
        match encode(b)
        case Failure(e) => Failure(Foreign(e))
        case Success(bytes) => Success(urlRequest.(httpBody := Some(bytes)))
  }

  /** A successful materialisation carries a payload exactly when the
      descriptor has a body, and that payload is the encoder's output;
      everything else is what the base class built. */
  lemma BodyAttachedExactlyWhenPresent<B>(
    r: RequestWithBody<B>, requestType: HttpRequestType, parseUrl: UrlParser,
    encode: B -> Result<Bytes, SystemError>)
    requires ToUrlRequestWithBody(r, requestType, parseUrl, encode).Success?
    ensures var req := ToUrlRequestWithBody(r, requestType, parseUrl, encode).value;
      && r.base.url != []
      && parseUrl(r.base.url).Some?
      && (req.httpBody.Some? <==> r.body.Some?)
      && (r.body.Some? ==> encode(r.body.value) == Success(req.httpBody.value))
      && Materializes(req.(httpBody := None), parseUrl(r.base.url).value, requestType, r.base.timeout, r.base.headers)
  {
  }
}

=== FILE: http_request_hook.dfy ===
/** `HttpRequestHook.swift`: the public orchestrator. Each verb call emits a
    loading snapshot, builds a `URLRequest` from its descriptor (encoding
    the body, if any), hands it to the session and turns every completion
    the session delivers into a settled snapshot, decoding JSON on the
    success path. A call is modelled by the request it dispatched, if any,
    and the list of snapshots its callback receives. */
module RequestHook {
  import opened Basics
  import opened Foundation
  import opened Types
  import opened RequestType

  /** The struct `HttpRequestHook`: its session, with the two Foundation
      behaviours the orchestrator relies on, `URL(string:)` and the
      `localizedDescription` of a thrown `RequestError`. */
  datatype HttpRequestHook = HttpRequestHook(
    session: Session,
    parseUrl: UrlParser,
    describe: RequestError -> string)

  /** `jsonDecoder.decode(TResult.self, from:)` at one result type. */
  type JsonDecoder<T> = Bytes -> Result<T, SystemError>

  /** `jsonEncoder.encode(_:)` at one body type. */
  type JsonEncoder<-B> = B -> Result<Bytes, SystemError>

  /** One verb call: the request handed to the session, if it got that
      far, and every snapshot delivered to the caller's callback, in order. */
  datatype Run<T> = Run(dispatched: Option<UrlRequest>, callbacks: seq<Callback<T>>)

  // ---------------------------------------------------------------------
  // Building

  /** `buildURLRequest(request:type:)`: `NoUrl` for an empty url whatever
      the parser would say, `BadUrl` for a url the parser refuses, and
      otherwise the materialised request. */
  function BuildUrlRequest(hook: HttpRequestHook, request: HttpRequest, requestType: HttpRequestType)
    : (r: Result<UrlRequest, RequestError>)
    ensures request.url == [] ==> r == Failure(NoUrl)
    ensures request.url != [] && hook.parseUrl(request.url).None? ==> r == Failure(BadUrl)
    ensures request.url != [] && hook.parseUrl(request.url).Some? ==>
      r.Success? && Materializes(r.value, hook.parseUrl(request.url).value, requestType, request.timeout, request.headers)
  {
    if request.url == [] then
      Failure(NoUrl)
    else
      match hook.parseUrl(request.url)
      case None => Failure(BadUrl)
      case Some(urlObject) =>
        var urlRequest := NewUrlRequest(urlObject, UseProtocolCachePolicy, request.timeout.GetOr(DefaultTimeout));
        var withMethod := urlRequest.(httpMethod := requestType.RawValue());
        Success(withMethod.(allHttpHeaderFields := HeaderFields(request.headers)))
  }

  /** The `do` block of `requestWithBody` up to dispatch: build from the
      base descriptor, then, only when a body is present, encode it into
      the payload. Build errors come first and leave the encoder unasked. */
  function PrepareWithBody<B>(
    hook: HttpRequestHook, request: HttpRequestWithBody<B>, requestType: HttpRequestType, encode: JsonEncoder<B>)
    : (r: Result<UrlRequest, Thrown>)
    ensures BuildUrlRequest(hook, request.base, requestType).Failure? ==>
      r == Failure(Raised(BuildUrlRequest(hook, request.base, requestType).error))
    ensures r.Success? ==>
      && BuildUrlRequest(hook, request.base, requestType) == Success(r.value.(httpBody := None))
      && (r.value.httpBody.Some? <==> request.body.Some?)
      && (request.body.Some? ==> encode(request.body.value) == Success(r.value.httpBody.value))
    ensures r.Failure? && r.error.Foreign? ==>
      request.body.Some? && encode(request.body.value) == Failure(r.error.cause)
    ensures (BuildUrlRequest(hook, request.base, requestType).Success? && request.body.Some? &&
             encode(request.body.value).Failure?) ==>
      r == Failure(Foreign(encode(request.body.value).error))
    ensures (BuildUrlRequest(hook, request.base, requestType).Success? &&
             (request.body.None? || encode(request.body.value).Success?)) ==>
      r.Success?
  {
    match BuildUrlRequest(hook, request.base, requestType)
    case Failure(e) => Failure(Raised(e))
    case Success(urlRequest) =>
      match request.body
      case None => Success(urlRequest)
      case Some(body) =>
        match encode(body)
        case Failure(e) => Failure(Foreign(e))
        case Success(bytes) => Success(urlRequest.(httpBody := Some(bytes)))
  }

  /** The only way `PrepareWithBody` fails besides a build error is the
      encoder failing on a present body; with a body the encoder accepts,
      it succeeds whenever building does. */
  lemma PrepareSucceedsWhenBuildAndEncodeDo<B>(
    hook: HttpRequestHook, request: HttpRequestWithBody<B>, requestType: HttpRequestType, encode: JsonEncoder<B>)
    requires BuildUrlRequest(hook, request.base, requestType).Success?
    requires request.body.None? || encode(request.body.value).Success?
    ensures PrepareWithBody(hook, request, requestType, encode).Success?
  {
  }

  // ---------------------------------------------------------------------
  // Interpreting deliveries

  /** The completion-handler calls `doNetworkRequest` makes for one
      delivery, as the code is written: a transport error is reported as
      `NetworkError` and, since that branch does not return, the response
      is then classified as well. On the success path with data the
      decoder decides between the decoded value and `JsonParseFailure`. */
  function Interpret<T>(d: Delivery, decode: JsonDecoder<T>): (cs: seq<Completion<T>>)
    ensures |cs| == if d.error.Some? then 2 else 1
    ensures forall i :: 0 <= i < |cs| ==> IsDecisive(cs[i])
    ensures d.error.Some? ==> cs[0] == Failed(NetworkError(d.error.value.localizedDescription))
    ensures var last := cs[|cs| - 1];
      && (d.response.None? || d.response.value.PlainUrlResponse? ==>
            last == Failed(Exception(ResponseNotCreated)))
      && (d.response.Some? && d.response.value.HttpUrlResponse? && !IsSuccessStatus(d.response.value.statusCode) ==>
            last == Failed(HttpStatus(d.response.value.statusCode)))
      && (d.response.Some? && d.response.value.HttpUrlResponse? && IsSuccessStatus(d.response.value.statusCode) ==>
            match d.data
            case None => last == Failed(Exception(ResponseDataEmpty))
            case Some(bytes) =>
              match decode(bytes)
              case Success(v) => last == Completion(Some(v), None)
              case Failure(e) => last == Failed(JsonParseFailure(e.localizedDescription)))
  {
    var reported: seq<Completion<T>> :=
      if d.error.Some? then [Failed(NetworkError(d.error.value.localizedDescription))] else [];
    var classified: Completion<T> :=
      match d.response
      case Some(HttpUrlResponse(code)) =>
        if code >= 200 && code < 300 then
          match d.data
          case None => Failed(Exception(ResponseDataEmpty))
          case Some(dataObj) =>
            match decode(dataObj)
            case Success(v) => Completion(Some(v), None)
            case Failure(e) => Failed(JsonParseFailure(e.localizedDescription))
        else
          Failed(HttpStatus(code))
      case _ => Failed(Exception(ResponseNotCreated));
    reported + [classified]
  }

  /** A delivery's final completion carries a result exactly when the
      response is HTTP with a success status, data is present and the
      decoder accepts it; a status outside [200, 300) is reported with its
      exact code whatever the data. */
  lemma InterpretSucceedsExactlyOnDecodedSuccess<T>(d: Delivery, decode: JsonDecoder<T>)
    ensures var cs := Interpret(d, decode);
      cs[|cs| - 1].result.Some? <==>
        && d.response.Some? && d.response.value.HttpUrlResponse?
        && IsSuccessStatus(d.response.value.statusCode)
        && d.data.Some? && decode(d.data.value).Success?
    ensures forall data: Option<Bytes>, code: int :: !IsSuccessStatus(code) ==>
      var cs := Interpret(d.(data := data, response := Some(HttpUrlResponse(code))), decode);
      cs[|cs| - 1] == Failed(HttpStatus(code))
  {
  }

  /** The completions for a sequence of deliveries, in delivery order:
      one per delivery plus one per transport error; no completion ever
      carries `NoUrl` or `BadUrl`, which only building raises. */
  function InterpretAll<T>(ds: seq<Delivery>, decode: JsonDecoder<T>): (cs: seq<Completion<T>>)
    ensures |cs| == |ds| + TransportErrors(ds)
    ensures forall i :: 0 <= i < |cs| ==> IsDecisive(cs[i])
    ensures forall i :: 0 <= i < |cs| ==> cs[i].error != Some(NoUrl) && cs[i].error != Some(BadUrl)
  {
    if ds == [] then [] else Interpret(ds[0], decode) + InterpretAll(ds[1..], decode)
  }

  /** Deliveries are interpreted one by one and in order: the completions
      for two runs of deliveries are those of the first, then those of
      the second. */
  lemma {:induction false} InterpretAllAppend<T>(a: seq<Delivery>, b: seq<Delivery>, decode: JsonDecoder<T>)
    ensures InterpretAll(a + b, decode) == InterpretAll(a, decode) + InterpretAll(b, decode)
    decreases |a|
  {
    if a == [] {
      assert a + b == b;
    } else {
      assert (a + b)[1..] == a[1..] + b;
      InterpretAllAppend(a[1..], b, decode);
    }
  }

  /** A single delivery gives exactly its own interpretation. */
  lemma InterpretAllSingle<T>(d: Delivery, decode: JsonDecoder<T>)
    ensures InterpretAll([d], decode) == Interpret(d, decode)
  {
    assert [d][1..] == [];
  }

  /** `doNetworkRequest(request:completionHandler:)`: the completion-handler
      calls, in order, for one dispatched request. */
  function DoNetworkRequest<T>(hook: HttpRequestHook, request: UrlRequest, decode: JsonDecoder<T>)
    : (cs: seq<Completion<T>>)
    ensures |cs| == |hook.session(request)| + TransportErrors(hook.session(request))
    ensures forall i :: 0 <= i < |cs| ==> IsDecisive(cs[i])
    ensures forall i :: 0 <= i < |cs| ==> cs[i].error != Some(NoUrl) && cs[i].error != Some(BadUrl)
  {
    InterpretAll(hook.session(request), decode)
  }

  /** The snapshots the callback receives for a list of completions. */
  function SettleAll<T>(cs: seq<Completion<T>>): (cbs: seq<Callback<T>>)
    ensures |cbs| == |cs|
    ensures forall i :: 0 <= i < |cs| ==> cbs[i] == Settle(cs[i])
  {
    seq(|cs|, i requires 0 <= i < |cs| => Settle(cs[i]))
  }

  // ---------------------------------------------------------------------
  // The call protocol

  /** The body shared by `requestWithoutBody` and `requestWithBody`, given
      the outcome of their `do` block up to dispatch: a loading snapshot
      first; then, if preparation threw, one snapshot with `Exception`
      carrying the error's description and no dispatch (the `catch` wraps
      `NoUrl` and `BadUrl` like any other error); otherwise the request is
      dispatched and every completion becomes a settled snapshot. */
  function Dispatch<T>(hook: HttpRequestHook, prepared: Result<UrlRequest, Thrown>, decode: JsonDecoder<T>)
    : (run: Run<T>)
    ensures |run.callbacks| >= 1 && IsLoading(run.callbacks[0])
    ensures forall i :: 1 <= i < |run.callbacks| ==> IsSettled(run.callbacks[i])
    ensures run.dispatched.None? <==> prepared.Failure?
    ensures prepared.Failure? ==>
      run.callbacks[1..] == [Settle(Failed(Exception(LocalizedDescription(prepared.error, hook.describe))))]
    ensures prepared.Success? ==>
      run.dispatched == Some(prepared.value) &&
      run.callbacks[1..] == SettleAll(DoNetworkRequest(hook, prepared.value, decode))
  {
    var loading: Callback<T> := LoadingOnly(true);
    match prepared
    case Failure(thrown) =>
      Run(None, [loading, Callback(false, None, Some(Exception(LocalizedDescription(thrown, hook.describe))))])
    case Success(urlRequest) =>
      Run(Some(urlRequest), [loading] + SettleAll(DoNetworkRequest(hook, urlRequest, decode)))
  }

  /** `requestWithoutBody(request:type:callback:)`. */
  function RequestWithoutBody<T>(
    hook: HttpRequestHook, request: HttpRequest, requestType: HttpRequestType, decode: JsonDecoder<T>)
    : (run: Run<T>)
    ensures |run.callbacks| >= 1 && IsLoading(run.callbacks[0])
    ensures forall i :: 1 <= i < |run.callbacks| ==> IsSettled(run.callbacks[i])
    ensures run.dispatched ==
      match BuildUrlRequest(hook, request, requestType)
      case Success(u) => Some(u)
      case Failure(_) => None
    ensures run.dispatched.Some? ==>
      run.dispatched.value.httpMethod == requestType.RawValue() && run.dispatched.value.httpBody.None?
    ensures run.dispatched.Some? ==>
      run.callbacks[1..] == SettleAll(DoNetworkRequest(hook, run.dispatched.value, decode))
    ensures run.dispatched.None? ==>
      run.callbacks[1..] ==
        [Callback(false, None, Some(Exception(hook.describe(BuildUrlRequest(hook, request, requestType).error))))]
  {
    var prepared: Result<UrlRequest, Thrown> :=
      match BuildUrlRequest(hook, request, requestType)
      case Failure(e) => Failure(Raised(e))
      case Success(urlRequest) => Success(urlRequest);
    Dispatch(hook, prepared, decode)
  }

  /** `requestWithBody(request:type:callback:)`. */
  function RequestWithBody<B, T>(
    hook: HttpRequestHook, request: HttpRequestWithBody<B>, requestType: HttpRequestType,
    encode: JsonEncoder<B>, decode: JsonDecoder<T>)
    : (run: Run<T>)
    ensures |run.callbacks| >= 1 && IsLoading(run.callbacks[0])
    ensures forall i :: 1 <= i < |run.callbacks| ==> IsSettled(run.callbacks[i])
    ensures run.dispatched.Some? ==>
      && run.dispatched.value.httpMethod == requestType.RawValue()
      && (run.dispatched.value.httpBody.Some? <==> request.body.Some?)
    ensures run.dispatched ==
      match PrepareWithBody(hook, request, requestType, encode)
      case Success(u) => Some(u)
      case Failure(_) => None
    ensures run.dispatched.Some? ==>
      run.callbacks[1..] == SettleAll(DoNetworkRequest(hook, run.dispatched.value, decode))
    ensures run.dispatched.None? ==>
      run.callbacks[1..] ==
        [Settle(Failed(Exception(LocalizedDescription(
          PrepareWithBody(hook, request, requestType, encode).error, hook.describe))))]
  {
    Dispatch(hook, PrepareWithBody(hook, request, requestType, encode), decode)
  }

  // ---------------------------------------------------------------------
  // The public verbs

  function Get<T>(hook: HttpRequestHook, request: HttpRequest, decode: JsonDecoder<T>): (run: Run<T>)
    ensures |run.callbacks| >= 1 && IsLoading(run.callbacks[0])
    ensures forall i :: 1 <= i < |run.callbacks| ==> IsSettled(run.callbacks[i])
    ensures run.dispatched.None? <==> BuildUrlRequest(hook, request, HttpRequestType.Get).Failure?
    ensures run.dispatched.Some? ==>
      && run.dispatched.value == BuildUrlRequest(hook, request, HttpRequestType.Get).value
      && run.callbacks[1..] == SettleAll(DoNetworkRequest(hook, run.dispatched.value, decode))
    ensures run.dispatched.None? ==> |run.callbacks| == 2
    ensures run.dispatched.Some? ==> run.dispatched.value.httpMethod == "GET" && run.dispatched.value.httpBody.None?
  {
    RequestWithoutBody(hook, request, HttpRequestType.Get, decode)
  }

  function PostWithBody<B, T>(
    hook: HttpRequestHook, request: HttpRequestWithBody<B>, encode: JsonEncoder<B>, decode: JsonDecoder<T>)
    : (run: Run<T>)
    ensures |run.callbacks| >= 1 && IsLoading(run.callbacks[0])
    ensures forall i :: 1 <= i < |run.callbacks| ==> IsSettled(run.callbacks[i])
    ensures run.dispatched.None? <==> PrepareWithBody(hook, request, HttpRequestType.Post, encode).Failure?
    ensures run.dispatched.Some? ==>
      && run.dispatched.value == PrepareWithBody(hook, request, HttpRequestType.Post, encode).value
      && run.callbacks[1..] == SettleAll(DoNetworkRequest(hook, run.dispatched.value, decode))
    ensures run.dispatched.None? ==> |run.callbacks| == 2
    ensures run.dispatched.Some? ==>
      run.dispatched.value.httpMethod == "POST" && (run.dispatched.value.httpBody.Some? <==> request.body.Some?)
  {
    RequestWithBody(hook, request, HttpRequestType.Post, encode, decode)
  }

  function Post<T>(hook: HttpRequestHook, request: HttpRequest, decode: JsonDecoder<T>): (run: Run<T>)
    ensures |run.callbacks| >= 1 && IsLoading(run.callbacks[0])
    ensures forall i :: 1 <= i < |run.callbacks| ==> IsSettled(run.callbacks[i])
    ensures run.dispatched.None? <==> BuildUrlRequest(hook, request, HttpRequestType.Post).Failure?
    ensures run.dispatched.Some? ==>
      && run.dispatched.value == BuildUrlRequest(hook, request, HttpRequestType.Post).value
      && run.callbacks[1..] == SettleAll(DoNetworkRequest(hook, run.dispatched.value, decode))
    ensures run.dispatched.None? ==> |run.callbacks| == 2
    ensures run.dispatched.Some? ==> run.dispatched.value.httpMethod == "POST" && run.dispatched.value.httpBody.None?
  {
    RequestWithoutBody(hook, request, HttpRequestType.Post, decode)
  }

  function PutWithBody<B, T>(
    hook: HttpRequestHook, request: HttpRequestWithBody<B>, encode: JsonEncoder<B>, decode: JsonDecoder<T>)
    : (run: Run<T>)
    ensures |run.callbacks| >= 1 && IsLoading(run.callbacks[0])
    ensures forall i :: 1 <= i < |run.callbacks| ==> IsSettled(run.callbacks[i])
    ensures run.dispatched.None? <==> PrepareWithBody(hook, request, HttpRequestType.Put, encode).Failure?
    ensures run.dispatched.Some? ==>
      && run.dispatched.value == PrepareWithBody(hook, request, HttpRequestType.Put, encode).value
      && run.callbacks[1..] == SettleAll(DoNetworkRequest(hook, run.dispatched.value, decode))
    ensures run.dispatched.None? ==> |run.callbacks| == 2
    ensures run.dispatched.Some? ==>
      run.dispatched.value.httpMethod == "PUT" && (run.dispatched.value.httpBody.Some? <==> request.body.Some?)
  {
    RequestWithBody(hook, request, HttpRequestType.Put, encode, decode)
  }

  function Put<T>(hook: HttpRequestHook, request: HttpRequest, decode: JsonDecoder<T>): (run: Run<T>)
    ensures |run.callbacks| >= 1 && IsLoading(run.callbacks[0])
    ensures forall i :: 1 <= i < |run.callbacks| ==> IsSettled(run.callbacks[i])
    ensures run.dispatched.None? <==> BuildUrlRequest(hook, request, HttpRequestType.Put).Failure?
    ensures run.dispatched.Some? ==>
      && run.dispatched.value == BuildUrlRequest(hook, request, HttpRequestType.Put).value
      && run.callbacks[1..] == SettleAll(DoNetworkRequest(hook, run.dispatched.value, decode))
    ensures run.dispatched.None? ==> |run.callbacks| == 2
    ensures run.dispatched.Some? ==> run.dispatched.value.httpMethod == "PUT" && run.dispatched.value.httpBody.None?
  {
    RequestWithoutBody(hook, request, HttpRequestType.Put, decode)
  }

  function DeleteWithBody<B, T>(
    hook: HttpRequestHook, request: HttpRequestWithBody<B>, encode: JsonEncoder<B>, decode: JsonDecoder<T>)
    : (run: Run<T>)
    ensures |run.callbacks| >= 1 && IsLoading(run.callbacks[0])
    ensures forall i :: 1 <= i < |run.callbacks| ==> IsSettled(run.callbacks[i])
    ensures run.dispatched.None? <==> PrepareWithBody(hook, request, HttpRequestType.Delete, encode).Failure?
    ensures run.dispatched.Some? ==>
      && run.dispatched.value == PrepareWithBody(hook, request, HttpRequestType.Delete, encode).value
      && run.callbacks[1..] == SettleAll(DoNetworkRequest(hook, run.dispatched.value, decode))
    ensures run.dispatched.None? ==> |run.callbacks| == 2
    ensures run.dispatched.Some? ==>
      run.dispatched.value.httpMethod == "DELETE" && (run.dispatched.value.httpBody.Some? <==> request.body.Some?)
  {
    RequestWithBody(hook, request, HttpRequestType.Delete, encode, decode)
  }

  function Delete<T>(hook: HttpRequestHook, request: HttpRequest, decode: JsonDecoder<T>): (run: Run<T>)
    ensures |run.callbacks| >= 1 && IsLoading(run.callbacks[0])
    ensures forall i :: 1 <= i < |run.callbacks| ==> IsSettled(run.callbacks[i])
    ensures run.dispatched.None? <==> BuildUrlRequest(hook, request, HttpRequestType.Delete).Failure?
    ensures run.dispatched.Some? ==>
      && run.dispatched.value == BuildUrlRequest(hook, request, HttpRequestType.Delete).value
      && run.callbacks[1..] == SettleAll(DoNetworkRequest(hook, run.dispatched.value, decode))
    ensures run.dispatched.None? ==> |run.callbacks| == 2
    ensures run.dispatched.Some? ==> run.dispatched.value.httpMethod == "DELETE" && run.dispatched.value.httpBody.None?
  {
    RequestWithoutBody(hook, request, HttpRequestType.Delete, decode)
  }

  // ---------------------------------------------------------------------
  // Properties of whole calls

  /** No snapshot a call emits ever carries `NoUrl` or `BadUrl`: a build
      failure reaches the caller as `Exception`, and completions never
      carry those two. */
  lemma NoUrlAndBadUrlNeverReachTheCaller<T>(
    hook: HttpRequestHook, prepared: Result<UrlRequest, Thrown>, decode: JsonDecoder<T>)
    ensures var run := Dispatch(hook, prepared, decode);
      forall i :: 0 <= i < |run.callbacks| ==>
        run.callbacks[i].error != Some(NoUrl) && run.callbacks[i].error != Some(BadUrl)
  {
    var run := Dispatch(hook, prepared, decode);
    if prepared.Success? {
      var cs := DoNetworkRequest(hook, prepared.value, decode);
      forall i | 1 <= i < |run.callbacks|
        ensures run.callbacks[i].error != Some(NoUrl) && run.callbacks[i].error != Some(BadUrl)
      {
        assert run.callbacks[i] == Settle(cs[i - 1]);
      }
    }
  }

  /** An empty url is never dispatched: the caller sees the loading
      snapshot and one `Exception` snapshot describing `NoUrl`, whatever
      the parser and the session would do. */
  lemma EmptyUrlIsNeverDispatched<T>(
    hook: HttpRequestHook, request: HttpRequest, requestType: HttpRequestType, decode: JsonDecoder<T>)
    requires request.url == []
    ensures RequestWithoutBody(hook, request, requestType, decode) ==
      Run(None, [LoadingOnly(true), Callback(false, None, Some(Exception(hook.describe(NoUrl))))])
  {
  }

  /** With a synchronous session that answers a dispatched request once
      and without a transport error, a call emits exactly two snapshots:
      loading, then one settled snapshot. */
  lemma SingleCleanDeliveryGivesTwoCallbacks<T>(
    hook: HttpRequestHook, prepared: Result<UrlRequest, Thrown>, decode: JsonDecoder<T>, d: Delivery)
    requires prepared.Success? && hook.session(prepared.value) == [d] && d.error.None?
    ensures var run := Dispatch(hook, prepared, decode);
      |run.callbacks| == 2 && IsLoading(run.callbacks[0]) && IsSettled(run.callbacks[1])
      && run.callbacks[1] == Settle(Interpret(d, decode)[0])
  {
    assert hook.session(prepared.value)[1..] == [];
  }

  /** A single delivery with a transport error yields three snapshots as
      the code is written: loading, `NetworkError`, and then the
      classification of whatever response came with the error. */
  lemma TransportErrorFallsThrough<T>(
    hook: HttpRequestHook, prepared: Result<UrlRequest, Thrown>, decode: JsonDecoder<T>, d: Delivery)
    requires prepared.Success? && hook.session(prepared.value) == [d] && d.error.Some?
    ensures var run := Dispatch(hook, prepared, decode);
      && |run.callbacks| == 3
      && run.callbacks[1] == Callback(false, None, Some(NetworkError(d.error.value.localizedDescription)))
      && IsSettled(run.callbacks[2])
      && run.callbacks[2] == Settle(Interpret(d, decode)[1])
      && (d.response.None? ==> run.callbacks[2].error == Some(Exception(ResponseNotCreated)))
  {
    assert hook.session(prepared.value)[1..] == [];
  }

  /** A GET whose session answers 200 with data the decoder accepts
      settles with the decoded value; one answered with a status outside
      [200, 300), such as 199, settles with that exact status. */
  lemma GetSettlesByStatus<T>(
    hook: HttpRequestHook, request: HttpRequest, decode: JsonDecoder<T>, code: int, data: Option<Bytes>)
    requires BuildUrlRequest(hook, request, HttpRequestType.Get).Success?
    requires hook.session(BuildUrlRequest(hook, request, HttpRequestType.Get).value) ==
      [Delivery(data, Some(HttpUrlResponse(code)), None)]
    ensures var run := Get(hook, request, decode);
      && |run.callbacks| == 2
      && (!IsSuccessStatus(code) ==> run.callbacks[1] == Callback(false, None, Some(HttpStatus(code))))
      && (IsSuccessStatus(code) && data.Some? && decode(data.value).Success? ==>
            run.callbacks[1] == Callback(false, Some(decode(data.value).value), None))
  {
    var req := BuildUrlRequest(hook, request, HttpRequestType.Get).value;
    SingleCleanDeliveryGivesTwoCallbacks(hook, Success(req), decode, Delivery(data, Some(HttpUrlResponse(code)), None));
  }

  /** A POST with a body the encoder accepts, answered once with 200 and
      data the decoder accepts, sends the encoded body and emits two
      snapshots, the second carrying the decoded value. */
  lemma PostWithBodySettlesWithDecodedValue<B, T>(
    hook: HttpRequestHook, request: HttpRequestWithBody<B>, encode: JsonEncoder<B>, decode: JsonDecoder<T>,
    data: Bytes)
    requires PrepareWithBody(hook, request, HttpRequestType.Post, encode).Success?
    requires request.body.Some?
    requires hook.session(PrepareWithBody(hook, request, HttpRequestType.Post, encode).value) ==
      [Delivery(Some(data), Some(HttpUrlResponse(200)), None)]
    requires decode(data).Success?
    ensures var run := PostWithBody(hook, request, encode, decode);
      && run.dispatched.Some?
      && run.dispatched.value.httpBody == Some(encode(request.body.value).value)
      && |run.callbacks| == 2
      && run.callbacks[1] == Callback(false, Some(decode(data).value), None)
  {
    var req := PrepareWithBody(hook, request, HttpRequestType.Post, encode).value;
    SingleCleanDeliveryGivesTwoCallbacks(hook, Success(req), decode, Delivery(Some(data), Some(HttpUrlResponse(200)), None));
  }
}

=== FILE: request_type.dfy ===
/** The verb enumeration `HttpRequestType`, and what a materialised
    request looks like; both request builders share these. */
module RequestType {
  import opened Basics
  import opened Foundation

  /** A `String`-backed enum; the raw value becomes the HTTP method. */
  datatype HttpRequestType = Get | Post | Delete | Put {

    function RawValue(): string {
      match this
      case Get => "GET"
      case Post => "POST"
      case Delete => "DELETE"
      case Put => "PUT"
    }
  }

  /** Distinct verbs send distinct methods. */
  lemma RawValuesDistinct(t1: HttpRequestType, t2: HttpRequestType)
    ensures t1.RawValue() == t2.RawValue() <==> t1 == t2
  {
  }

  /** The timeout, in seconds, of a descriptor that sets none. */
  const DefaultTimeout: real := 20.0

  /** What both builders promise of a request they return: the parsed url,
      the verb's raw value as method, the descriptor's timeout or the
      default, the protocol cache policy, exactly the descriptor's header
      entries, and no body yet. */
  predicate Materializes(
    req: UrlRequest, url: Url, requestType: HttpRequestType,
    timeout: Option<real>, headers: Option<Dictionary>)
  {
    && req.url == url
    && req.httpMethod == requestType.RawValue()
    && req.timeoutInterval == timeout.GetOr(DefaultTimeout)
    && req.cachePolicy == UseProtocolCachePolicy
    && req.allHttpHeaderFields == HeaderContents(headers)
    && req.httpBody.None?
  }
}

=== FILE: types.dfy ===
/** The descriptor, callback and error types of the library's `Types.swift`,
    with the completion pair that the transport layer hands back. */
module Types {
  import opened Basics
  import opened Foundation

  /** The closed failure taxonomy. */
  datatype RequestError =
    | NoUrl
    | BadUrl
    | NetworkError(message: string)
    | JsonParseFailure(message: string)
    | HttpStatus(code: int)
    | Exception(message: string)

  const ResponseNotCreated: string := "HttpResponse could not be created"
  const ResponseDataEmpty: string := "Response Data object is empty"

  /** Equality on the taxonomy is structural: two errors are equal exactly
      when they are the same case carrying the same payload. */
  lemma RequestErrorEqualityIsStructural(a: RequestError, b: RequestError)
    ensures a == b <==>
      match a
      case NoUrl => b.NoUrl?
      case BadUrl => b.BadUrl?
      case NetworkError(m) => b.NetworkError? && b.message == m
      case JsonParseFailure(m) => b.JsonParseFailure? && b.message == m
      case HttpStatus(c) => b.HttpStatus? && b.code == c
      case Exception(m) => b.Exception? && b.message == m
  {
  }

  // ---------------------------------------------------------------------
  // Request descriptors

  /** The class `HttpRequest`. Its initialisers accept a cache policy but
      never store it, so `cachePolicy` stays `nil` for every value they build. */
  datatype HttpRequest = HttpRequest(
    url: string,
    headers: Option<Dictionary>,
    timeout: Option<real>,
    cachePolicy: Option<CachePolicy>)

  /** `init(url:headers:timeout:cachePolicy:)`. */
  function NewHttpRequest(
    url: string, headers: Option<Dictionary>, timeout: Option<real>, cachePolicy: CachePolicy): (r: HttpRequest)
    ensures r.url == url && r.headers == headers && r.timeout == timeout
    ensures r.cachePolicy.None?
  {
    HttpRequest(url, headers, timeout, None)
  }

  /** `init(url:cachePolicy:)`. */
  function NewHttpRequestFromUrl(url: string, cachePolicy: CachePolicy): (r: HttpRequest)
    ensures r.url == url
    ensures r.headers.None? && r.timeout.None? && r.cachePolicy.None?
  {
    HttpRequest(url, None, None, None)
  }

  /** `HttpRequest(url: u)` matches both initialisers once defaults are
      filled in; either way the same descriptor results. */
  lemma UrlOnlyInitialisersAgree(url: string, cachePolicy: CachePolicy)
    ensures NewHttpRequest(url, None, None, cachePolicy) == NewHttpRequestFromUrl(url, cachePolicy)
  {
  }

  /** The subclass `HttpRequestWithBody<TBody>`: a base descriptor and an
      optional body (the stored property is `TBody?`). */
  datatype HttpRequestWithBody<B> = HttpRequestWithBody(base: HttpRequest, body: Option<B>)

  /** `init(url:body:headers:timeout:)`. */
  function NewHttpRequestWithBody<B>(
    url: string, body: B, headers: Option<Dictionary>, timeout: Option<real>): (r: HttpRequestWithBody<B>)
    ensures r.body == Some(body)
    ensures r.base.url == url && r.base.headers == headers && r.base.timeout == timeout
    ensures r.base.cachePolicy.None?
  {
    HttpRequestWithBody(NewHttpRequest(url, headers, timeout, UseProtocolCachePolicy), Some(body))
  }

  /** `init(url:body:)`. */
  function NewHttpRequestWithBodyFromUrl<B>(url: string, body: B): (r: HttpRequestWithBody<B>)
    ensures r.body == Some(body)
    ensures r.base.url == url
    ensures r.base.headers.None? && r.base.timeout.None? && r.base.cachePolicy.None?
  {
    HttpRequestWithBody(NewHttpRequestFromUrl(url, UseProtocolCachePolicy), Some(body))
  }

  // ---------------------------------------------------------------------
  // Callbacks and completions

  /** The struct `Callback<TResult>`: a snapshot of a call's progress. */
  datatype Callback<T> = Callback(loading: bool, result: Option<T>, error: Option<RequestError>)

  /** The memberwise initialiser called with `loading` only; the two
      optional members take their default `nil`. */
  function LoadingOnly<T>(loading: bool): (c: Callback<T>)
    ensures c.loading == loading
    ensures c.result.None? && c.error.None?
  {
    Callback(loading, None, None)
  }

  /** The first snapshot of every call. */
  predicate IsLoading<T>(c: Callback<T>) {
    c.loading && c.result.None? && c.error.None?
  }

  /** A terminal snapshot: not loading, and exactly one of result and error. */
  predicate IsSettled<T>(c: Callback<T>) {
    !c.loading && (c.result.Some? <==> c.error.None?)
  }

  /** The arguments of one completion-handler call, `(TResult?, RequestError?)`. */
  datatype Completion<T> = Completion(result: Option<T>, error: Option<RequestError>)

  /** A completion carrying exactly one of result and error. */
  predicate IsDecisive<T>(c: Completion<T>) {
    c.result.Some? <==> c.error.None?
  }

  function Failed<T>(e: RequestError): Completion<T> {
    Completion(None, Some(e))
  }

  /** The snapshot the orchestrator emits for one completion. */
  function Settle<T>(c: Completion<T>): Callback<T> {
    Callback(false, c.result, c.error)
  }

  /** Anything a Swift `catch` can receive in this core: a thrown
      `RequestError` or an error thrown by Foundation. */
  datatype Thrown = Raised(error: RequestError) | Foreign(cause: SystemError)

  /** `localizedDescription`; for a `RequestError` the text is Foundation's
      and is supplied as `describe`. */
  function LocalizedDescription(t: Thrown, describe: RequestError -> string): string {
    match t
    case Raised(e) => describe(e)
    case Foreign(cause) => cause.localizedDescription
  }
}

=== FILE: variants.dfy ===
/** The library carries two near-duplicate versions of the build step and of
    the response classification. These lemmas relate them: the builders
    agree on every descriptor, and the raw-bytes classifier is the decoding
    one run with a decoder that accepts any bytes unchanged. */
module Variants {
  import opened Basics
  import opened Foundation
  import opened Types
  import opened RequestType
  import RequestHook
  import Descriptors
  import RawClient

  /** The self-materialising descriptor holding the same fields. */
  function AsDescriptor(r: HttpRequest): Descriptors.RequestWithoutBody {
    Descriptors.RequestWithoutBody(r.url, r.headers, r.timeout, r.cachePolicy)
  }

  function AsDescriptorWithBody<B>(r: HttpRequestWithBody<B>): Descriptors.RequestWithBody<B> {
    Descriptors.RequestWithBody(AsDescriptor(r.base), r.body)
  }

  /** `buildURLRequest` and `RequestWithoutBody.toURLRequest` give the same
      request or the same error for every descriptor, verb and parser. */
  lemma BuildersAgree(hook: RequestHook.HttpRequestHook, request: HttpRequest, requestType: HttpRequestType)
    ensures RequestHook.BuildUrlRequest(hook, request, requestType) ==
      Descriptors.ToUrlRequest(AsDescriptor(request), requestType, hook.parseUrl)
  {
  }

  /** The orchestrator's build-then-encode step and
      `RequestWithBody.toURLRequest` agree, errors included. */
  lemma BodyBuildersAgree<B>(
    hook: RequestHook.HttpRequestHook, request: HttpRequestWithBody<B>, requestType: HttpRequestType,
    encode: RequestHook.JsonEncoder<B>)
    ensures RequestHook.PrepareWithBody(hook, request, requestType, encode) ==
      Descriptors.ToUrlRequestWithBody(AsDescriptorWithBody(request), requestType, hook.parseUrl, encode)
  {
    BuildersAgree(hook, request.base, requestType);
  }

  /** A decoder that accepts any bytes and returns them unchanged. */
  function KeepBytes(data: Bytes): Result<Bytes, SystemError> {
    Success(data)
  }

  /** `BaseHttpClient`'s classification is the orchestrator's with the
      decode step replaced by the identity: the same completions, in the
      same order, for every delivery. */
  lemma RawClassifierIsIdentityDecoding(d: Delivery)
    ensures RawClient.Classify(d) == RequestHook.Interpret(d, KeepBytes)
  {
  }

  /** Consequently the raw client never reports `JsonParseFailure`. */
  lemma {:induction false} RawClientNeverReportsParseFailure(ds: seq<Delivery>)
    ensures forall i :: 0 <= i < |RawClient.ClassifyAll(ds)| ==>
      RawClient.ClassifyAll(ds)[i].error.None? || !RawClient.ClassifyAll(ds)[i].error.value.JsonParseFailure?
    decreases |ds|
  {
    if ds != [] {
      RawClassifierIsIdentityDecoding(ds[0]);
      RawClientNeverReportsParseFailure(ds[1..]);
    }
  }
}
